=== FILE: README.md ===
# json-to-flow generator core, modelled in Dafny

This project models the generation pipeline of json-to-flow's `index.js`. The
generator takes the `definitions` map of a Swagger/OpenAPI document and renders
one Flow type stub per model through a template. The model covers these parts:

- **Field translation** (`Fields`): a property declaration (`type`, `$ref`, `format`,
  `items`, other attributes) becomes a field descriptor with a rewritten `type`
  and a `required` flag. The rules are tried in order: arrays first, recursing
  through the *configured* translator; then `date`/`date-time` strings; then
  `$ref`, whose last path segment goes through the `{'x-any': 'any'}` table;
  otherwise the declared type is kept. `DefaultTranslate` is the built-in
  translator when it is its own recursion target. It is proved to be the unique
  fixed point of that configuration.
- **Schema translation** (`Schemas`): the configured translator is applied to every key of `properties`.
- **Options** (`Options`): defaults, then caller options. `templateData` is
  merged shallowly with JavaScript object-spread semantics (`Objects.Spread`).
- **Template resolution** (`Templates`): the caller's `templateFn` is used if
  given. Otherwise the template at `templatePath` is compiled once and cached by path.
- **Rendering** (`Generation`): each model's context is `templateData` overridden
  by `modelName` and `modelSchema`, then passed through the optional
  `preTemplateFn`, then rendered. The results are collected in model order.
- **Writing** (`Writer`, `Pipeline`): one write per result key. The destination is
  `targetPath(modelName)` for a function target, and otherwise
  `join(targetPath, modelName + templateExtension)`. The writes are settled together.

JavaScript objects are modelled as insertion-ordered association lists with unique
keys (`Objects.Obj`). This keeps the `Object.keys` order that the result map
inherits from the schema map.

A `$ref` with no `/`, or one that ends in `/`, raises no error: `type` keeps the
input's value (index.js:140-143).

## Model

| member | source | states |
|---|---|---|
| Objects.Spread | index.js:68-72 | `{...base, ...over}`: a key reads over's value when over has it and base's value otherwise; base's keys keep their positions at the front |
| Fields.LastSlash | index.js:126 | the index found holds a `/` and no `/` follows it; with no index, the string has no `/` |
| Fields.RefSegmentMatches | index.js:140-143 | the segment computed is exactly capture group 1 of `/\/([^/]+?)$/`; any match yields it; there is no match exactly when the ref has no `/` or ends with `/` |
| Fields.TranslateField | index.js:128-146 | `required` iff the key is in the model's `required` list (false when it is absent); `$ref`, `format`, `items` and other attributes are copied; items give `Array<T>` with T the configured translator's type for the items and win over dates and refs; a date-formatted string gives `Date` even with a ref; a matching ref gives its last segment, `x-any` mapped to `any`; otherwise the input type is kept |
| Fields.DefaultTranslate | index.js:128-134 | the default translator sets `required` from the required list and copies every other attribute |
| Fields.DefaultIsFixpoint | index.js:56 | the default translator equals the translator function configured with itself as `options.translateField` |
| Fields.FixpointIsUnique | index.js:135-136 | every translator that is its own recursion target for these rules agrees with the default translator on every field |
| Fields.ArrayWrap | index.js:135-136 | an array declaration translates to `Array<` + its items' translated type + `>` |
| Fields.NestedArrayType | index.js:135-136 | n nested `items` levels translate to n `Array<` prefixes and n `>` suffixes around the innermost type |
| Schemas.TranslateEntries | index.js:119-122 | keys and their order are kept; each entry is the translator's result for that key |
| Schemas.TranslateSchema | index.js:118-123 | exactly one entry per property key, in order, each the configured translator's result; missing `properties` gives an empty schema |
| Options.MergeOptions | index.js:48-72 | caller keys override defaults; `templateData` is merged shallowly, so default keys the caller did not supply survive and keep their place; a caller `templateFn` is kept as given |
| Templates.ResolveTemplate | index.js:75-80 | a caller `templateFn` wins and the cache is untouched; a cached path is reused; a miss inserts the loader's compiled template under the path and renders with exactly that template; a load failure fails the run; existing cache entries never change |
| Templates.ResolveIsCached | index.js:76-79 | a second resolution against the cache the first left behind returns the same template without loading |
| Generation.ModelContext | index.js:112 | the context maps `modelName` and `modelSchema` to the given values and every other key to its `templateData` value |
| Generation.GenerateJS | index.js:110-115 | rendering fails exactly when `templateFn` is unset; otherwise the text is `templateFn` of the hooked context |
| Generation.RenderEntries | index.js:103-106 | the rendered entries keep the models' keys and order; each is that model's rendered text |
| Generation.GenerateAllResults | index.js:102-107 | the result has exactly the model names as keys, in input order, and each maps to `templateFn` of that model's hooked context; it fails only when there is a model and no `templateFn` |
| Generation.HookRenameReflected | index.js:110-116 | for any template: when the hook sets `modelName`, the context the template renders carries the hook's name, whatever the schema key, and the rendered text is the template applied to that context (no template: the render fails) |
| Generation.ContextWithoutHook | index.js:111-113 | without a hook the template sees the model's own name, its translated schema, and the template data for every other key |
| Writer.WriteAllResults | index.js:89-98 | one write per result key, in key order, carrying that key's text, to `targetPath(modelName)` for a function target and `join(dir, modelName + extension)` otherwise |
| Writer.Settle | index.js:90 | the writes settle successfully iff every write succeeds; otherwise the reported write is one that failed |
| Writer.DestinationsDistinct | index.js:91-96 | if the join or the naming function is injective on names, no two models are written to the same path |
| Pipeline.Deliver | index.js:83-85 | with no target, or an empty directory string, nothing is written and the results are returned; otherwise every result is written and the run fails iff a write fails |
| Pipeline.Run | index.js:82-86 | the run succeeds exactly when every model renders and every write issued is accepted, so with no target the rendered results are returned; a success returns the rendered results; a rendering failure returns before any write; with a target and rendered results, exactly the writer's writes are issued; a failure after writing names a rejected write |
| Pipeline.Generate | index.js:67-87 | the run succeeds exactly when the template resolves, some render function exists whenever there is a model, and every write issued is accepted; a template load failure fails the run with no writes and the cache as it was; the result keys equal the schema's model names; no writes without a target; a render failure means there was a model and no template; a failure after writing is `WriteFailed` with the path of a rejected write |
| Pipeline.Complete | index.js:75-86 | after template resolution: a resolution failure is returned with no writes; otherwise the resolution's cache is handed back, each model's text is the resolved template applied to its context, and the run succeeds exactly when some template exists for the models and every write is accepted |
| Pipeline.GenerateResults | index.js:75-82 | each model's text is the caller `templateFn` applied to its context when one is given; otherwise, with a non-empty template path, the template is cached under that path and each model's text is that cached template applied to its context |
| Pipeline.GenerateCache | index.js:75-80 | the cache a run hands back is the one template resolution left, also when a write is then rejected; a caller `templateFn` leaves it untouched; existing entries never change; only the merged template path can be added; a cached path leaves the cache as it was; a miss adds exactly the loader's template, which is the one that renders |
| Pipeline.RunWrites | index.js:82-98 | after rendering, writes happen only with a target, one per model in order, at that model's destination with its rendered text; a successful run had every write accepted |
| Pipeline.RunWriteContents | index.js:82-98 | every write issued carries its model's rendered text, also when another write is rejected |
| Pipeline.GenerateWrites | index.js:83-98 | writes happen only with a target, one per model in order, at that model's destination; each carries the resolved template applied to its model's context, also when another write is rejected; a successful run had every write accepted |
| Writer.DirDestinationsDistinct | index.js:95 | into a directory, an injective join gives every model its own file |
| Writer.NamerDestinationsDistinct | index.js:92-93 | through a naming function injective on the model names, every model gets its own file |
| Scenarios.RefTableExample | index.js:139-142 | `#/definitions/x-any` gives `any` |
| Scenarios.RefNameExample | index.js:139-142 | `#/definitions/Order` gives `Order` |
| Scenarios.RefNoMatchExamples | index.js:140-143 | `Order` and `#/definitions/` match nothing and leave the absent type absent |
| Scenarios.DateBeatsRef | index.js:137-138 | a `date-time` string field with a `$ref` still becomes `Date` |
| Scenarios.NoDateTranslate | test/test.spec.js:122-128 | the test suite's override leaves non-array types as declared |
| Scenarios.CustomTranslatorReplacesDefault | test/test.spec.js:116-132 | with the override a `date-time` field stays `string`; with the default translator it becomes `Date` |
| Scenarios.RenamedPage | test/test.spec.js:104-111 | with the renaming hook, the custom template prints `custom template for Me` |
| Scenarios.PreTemplateHookKeys | test/test.spec.js:112 | the hook run succeeds, writes nothing, and its keys are `Order, Instrument, User, ApiKey` in order |
| Scenarios.PreTemplateHookText | test/test.spec.js:113 | the `User` result is `custom template for Me` |
| Scenarios.TargetFunctionRun | test/test.spec.js:54-70 | with a naming function, four writes are issued; the `User` write goes to the function's path and carries its text |
| Scenarios.NamerRunSucceeds | test/test.spec.js:54-70 | with a naming function and every write accepted, the run succeeds with one write per model |
| Scenarios.NamerUserWrite | test/test.spec.js:54-70 | the `User` write goes to the naming function's path and carries the custom template's text for `User` |
| Scenarios.NamerUserPage | test/test.spec.js:54-70 | without a hook, the custom template prints the model's own name |

## Left out

- Reading and compiling the template (`readFile`, `ejs.compile`) is the `Loader` parameter. Any failure in it is a load error.
- `writeFile` is represented by the list of `Write` records issued plus the `accepts` parameter, which says which writes succeed. Writes are not rolled back, since nothing is modelled on disk.
- `path.join` is an abstract parameter. The bundled default template path (built from `__dirname`) is a parameter too.
- `async`/`await` and the `Promise.all` fan-out are not modelled. Writes are a list in key order, and ordering between concurrent writes is not modelled.
- Writer.Settle: reports the first failing write in key order. `Promise.all` rejects with whichever write fails first in time, which the model cannot know.
- Exceptions thrown by caller-supplied functions (`templateFn`, `preTemplateFn`, `translateField`, a `targetPath` function) are not modelled: these are total functions here. The only render failure modelled is calling an unset `templateFn`.
- A caller option present with the value `undefined` or `null` overrides the default in the source (the spread on line 70). Caller options here are only present or absent. This is the case the CLI's `trimNullUndefined` works around.
- Options.MergeOptions: JavaScript orders integer-like keys ahead of others in `Object.keys`. The spread here keeps plain insertion order.
- Prototype properties of plain JavaScript objects are not modelled; the model's tables and maps have own keys only. This covers three places: the `translations` table (a ref ending in `toString`); the `templateCache` on line 76, where a `templatePath` of `toString` or `constructor` finds an inherited function, so nothing is compiled and that function renders every model; and the `reduce` accumulators on lines 104 and 120, where a model or property named `__proto__` never becomes an own key.
- The `modelSchema &&` guard on index.js:133 is not modelled: every translator call the core makes passes the owning schema.
- Field attributes other than `type`, `$ref`, `format` and `items` are carried as opaque text. A field's own `required` attribute is not modelled, because line 133 overwrites it.
- The `preTemplateFn` hook mutates its argument in place and returns it. Here it returns a new context.
- Hooks, templates and translators are pure here; in-place mutation of shared nested data is not modelled. The spreads on lines 71 and 112 are shallow, so the default `additionalTypes` object (line 51) is shared by every model of every run, and a translator that returns its input field (as the test suite's does) hands the caller's own object to the template. A hook that mutates such nested objects changes what later models, later runs and the caller see; the model passes values only.
- Calling `generateDefinitions` with no options object at all throws a `TypeError` when line 71 reads `options.templateData`, before any template load or write. `UserOptions` always stands for an options object, possibly with every key absent.
- The process-wide `templateCache` is an explicit cache passed in and returned.
- `cli.js` (option parsing, loading the input file, the `definitions` key selection) and the Flow type comments (index.js:10-47) are not part of this model.

=== FILE: examples.dfy ===
/** Cases from the repository's test suite and examples of the `$ref` rule. */
module Scenarios {
  import opened Optional
  import opened Objects
  import opened Fields
  import opened Schemas
  import opened Writer
  import opened Options
  import opened Templates
  import opened Generation
  import opened Pipeline

  const NoModel := SwaggerModel(None, None)

  function RefField(ref: string): Field {
    Field(None, Some(ref), None, None, map[])
  }

  /** A `/` at `i` followed by a non-empty, slash-free tail is a match capturing that tail. */
  lemma MatchAt(s: string, i: nat, seg: string)
    requires i < |s| && s[i] == '/' && s[i + 1..] == seg && seg != [] && '/' !in seg
    ensures RefMatch(s, seg)
  {
  }

  /** A `$ref` to the `x-any` sentinel translates to `any`. */
  lemma RefTableExample()
    ensures DefaultTranslate(RefField("#/definitions/x-any"), NoModel, "k").typeName == Some("any")
  {
    var a := "#/definitions/x-any";
    assert a[13] == '/' && a[14..] == "x-any";
    MatchAt(a, 13, "x-any");
    RefSegmentMatches(a);
  }

  /** A `$ref` to a model translates to the model's bare name. */
  lemma RefNameExample()
    ensures DefaultTranslate(RefField("#/definitions/Order"), NoModel, "k").typeName == Some("Order")
  {
    var b := "#/definitions/Order";
    assert b[13] == '/' && b[14..] == "Order";
    MatchAt(b, 13, "Order");
    RefSegmentMatches(b);
  }

  /** A `$ref` without a `/`, or ending in one, leaves the type as declared (here absent). */
  lemma RefNoMatchExamples()
    ensures DefaultTranslate(RefField("Order"), NoModel, "k").typeName == None
    ensures DefaultTranslate(RefField("#/definitions/"), NoModel, "k").typeName == None
  {
    RefSegmentMatches("Order");
    RefSegmentMatches("#/definitions/");
  }

  /** A date-time string field becomes `Date` even when it also carries a `$ref`. */
  lemma DateBeatsRef()
    ensures DefaultTranslate(Field(Some("string"), Some("#/definitions/Order"), Some("date-time"), None, map[]),
                             NoModel, "k").typeName == Some("Date")
  {
  }

  /**
    The `translateField` override of the test suite: arrays recurse through it,
    nothing else is rewritten. The test's override returns no `required` key at
    all; the model's field outputs always carry the flag, so here it is `false`.
  */
  function NoDateTranslate(f: Field, ms: SwaggerModel, key: string): (r: FieldOutput)
    ensures f.items.None? ==> r.typeName == f.typeName
  {
    match f.items
    case Some(item) => FieldOutput(Some("Array<" + TypeText(NoDateTranslate(item, ms, key).typeName) + ">"), None, None, None, map[], false)
    case None => FieldOutput(f.typeName, f.ref, f.format, f.items, f.others, false)
  }

  /** A custom translator replaces the built-in rules, observably, inside every model's schema. */
  lemma CustomTranslatorReplacesDefault()
    ensures var created := Field(Some("string"), None, Some("date-time"), None, map[]);
      var ms := SwaggerModel(Some([("created", created)]), None);
      && Lookup(TranslateSchema(NoDateTranslate, ms), "created").value.typeName == Some("string")
      && Lookup(TranslateSchema(DefaultTranslate, ms), "created").value.typeName == Some("Date")
  {
    var created := Field(Some("string"), None, Some("date-time"), None, map[]);
    var ms := SwaggerModel(Some([("created", created)]), None);
    assert Properties(ms)[0].0 == "created";
  }

  /** The test suite's custom template text for a given `modelName` value. */
  function Page(name: Option<Value>): string {
    "custom template for " + match name
      case Some(Text(s)) => s
      case Some(_) => "[object Object]"
      case None => "undefined"
  }

  function CustomTemplate(ctx: Context): string {
    Page(Lookup(ctx, "modelName"))
  }

  /** The test suite's hook: it renames the model to `Me`. */
  function RenameToMe(ctx: Context): (r: Context)
    ensures Lookup(r, "modelName") == Some(Text("Me"))
  {
    Spread(ctx, [("modelName", Text("Me"))])
  }

  const Models: Obj<SwaggerModel> :=
    [("Order", NoModel), ("Instrument", NoModel), ("User", NoModel), ("ApiKey", NoModel)]

  /** The options of the test suite's hook scenario. */
  function HookOptions(): UserOptions {
    UserOptions(None, Some([("modelSuperClass", Text("Model")), ("modelSuperClassPath", Text("models/_model"))]), None, None, None, Some(RenameToMe), Some(CustomTemplate))
  }

  /** The hook scenario succeeds, writes nothing, and keeps the model names as result keys. */
  lemma PreTemplateHookKeys(env: Env, cache: TemplateCache)
    ensures var o := Generate(Models, HookOptions(), env, cache);
      && o.result.Success?
      && Keys(o.result.value) == ["Order", "Instrument", "User", "ApiKey"]
      && o.writes == []
  {
    assert Keys(Models) == ["Order", "Instrument", "User", "ApiKey"];
  }

  /** The hook's name is what the template prints. */
  lemma RenamedPage(bundledTemplate: string, modelName: string)
    ensures CustomTemplate(HookedContext(MergeOptions(bundledTemplate, HookOptions()), modelName, NoModel))
         == "custom template for Me"
  {
    var c := MergeOptions(bundledTemplate, HookOptions());
    HookRenameReflected(c, modelName, NoModel, "Me");
    assert Page(Some(Text("Me"))) == "custom template for Me";
  }

  /** With a renaming hook, the `User` model renders the hook's name. */
  lemma PreTemplateHookText(env: Env, cache: TemplateCache)
    ensures var o := Generate(Models, HookOptions(), env, cache);
      o.result.Success? && Lookup(o.result.value, "User") == Some("custom template for Me")
  {
    assert Models[2].0 == "User";
    RenamedPage(env.bundledTemplate, "User");
  }

  /**
    A `targetPath` function names every file; no directory join is involved.
    The run supplies its own `templateFn`, where the test suite renders with
    the bundled template, so the written text here is the custom template's.
  */
  lemma TargetFunctionRun(env: Env, cache: TemplateCache, namer: string -> string)
    requires forall w :: env.accepts(w)
    ensures var o := Generate(Models, NamerOptions(namer), env, cache);
      && o.result.Success?
      && |o.writes| == 4
      && o.writes[2] == Write(namer("User"), "custom template for User")
  {
    NamerRunSucceeds(env, cache, namer);
    NamerUserWrite(env, cache, namer);
  }

  /** The options of the naming-function scenario. */
  function NamerOptions(namer: string -> string): UserOptions {
    UserOptions(None, None, None, Some(Namer(namer)), None, None, Some(CustomTemplate))
  }

  lemma NamerRunSucceeds(env: Env, cache: TemplateCache, namer: string -> string)
    requires forall w :: env.accepts(w)
    ensures var o := Generate(Models, NamerOptions(namer), env, cache);
      o.result.Success? && |o.writes| == 4
  {
    GenerateWrites(Models, NamerOptions(namer), env, cache);
  }

  /** Without a hook, the custom template prints the model's own name. */
  lemma NamerUserPage(bundledTemplate: string, namer: string -> string)
    ensures CustomTemplate(HookedContext(MergeOptions(bundledTemplate, NamerOptions(namer)), "User", NoModel))
         == "custom template for User"
  {
    ContextWithoutHook(MergeOptions(bundledTemplate, NamerOptions(namer)), "User", NoModel);
  }

  lemma NamerUserWrite(env: Env, cache: TemplateCache, namer: string -> string)
    ensures var o := Generate(Models, NamerOptions(namer), env, cache);
      o.writes != [] ==> o.writes[2] == Write(namer("User"), "custom template for User")
  {
    var user := NamerOptions(namer);
    var c := MergeOptions(env.bundledTemplate, user);
    assert ResolveTemplate(c, cache, env.load) == Success(Resolved(Some(CustomTemplate), cache));
    NamerUserPage(env.bundledTemplate, namer);
    assert Models[2].0 == "User";
    GenerateWrites(Models, user, env, cache);
  }
}

=== FILE: fields.dfy ===
/**
  The field translator of `index.js`: one Swagger property declaration becomes
  one Flow-ready field descriptor.
*/
module Fields {
  import opened Optional
  import opened Objects

  /**
    One property declaration: `type`, `$ref`, `format`, `items`, and the
    remaining attributes (`description`, `enum`, ...) kept as opaque text.
  */
  datatype Field = Field(
    typeName: Option<string>,
    ref: Option<string>,
    format: Option<string>,
    items: Option<Field>,
    others: map<string, string>)

  /** The translated field: the input's attributes, a rewritten `type`, and `required`. */
  datatype FieldOutput = FieldOutput(
    typeName: Option<string>,
    ref: Option<string>,
    format: Option<string>,
    items: Option<Field>,
    others: map<string, string>,
    required: bool)

  /** One model of the `definitions` map: its properties and its `required` key list. */
  datatype SwaggerModel = SwaggerModel(properties: Option<Obj<Field>>, required: Option<seq<string>>)

  /** The configured `translateField` option, with its own recursion target already bound. */
  type Translator = (Field, SwaggerModel, string) -> FieldOutput

  /** The fixed name table consulted for `$ref` targets. */
  const Translations: map<string, string> := map["x-any" := "any"]

  /** The key is listed among the model's required keys; a model without that list requires nothing. */
  predicate IsRequired(ms: SwaggerModel, key: string) {
    ms.required.Some? && key in ms.required.value
  }

  /** A string field whose format is `date` or `date-time`. */
  predicate IsDate(f: Field) {
    f.typeName == Some("string") && (f.format == Some("date") || f.format == Some("date-time"))
  }

  /** The field carries a reference that is present and not the empty string. */
  predicate HasRef(f: Field) {
    f.ref.Some? && f.ref.value != ""
  }

  /** How string concatenation spells a type: an absent one reads `undefined`. */
  function TypeText(t: Option<string>): string {
    match t
    case Some(s) => s
    case None => "undefined"
  }

  /** The index of the last `/` in `s`, if any. */
  function LastSlash(s: string): (r: Option<nat>)
    ensures r.Some? ==> r.value < |s| && s[r.value] == '/' && '/' !in s[r.value + 1..]
    ensures r.None? ==> '/' !in s
  {
    if |s| == 0 then None
    else if s[|s| - 1] == '/' then Some(|s| - 1)
    else
      var r := LastSlash(s[..|s| - 1]);
      assert s == s[..|s| - 1] + [s[|s| - 1]];
      assert r.Some? ==> s[r.value + 1..] == s[..|s| - 1][r.value + 1..] + [s[|s| - 1]];
      r
  }

  /**
    `seg` is what the reference pattern captures on `s`: the non-empty,
    slash-free text after some `/` that runs to the end of `s`.
  */
  ghost predicate RefMatch(s: string, seg: string) {
    exists i :: 0 <= i < |s| && s[i] == '/' && seg == s[i + 1..] && seg != [] && '/' !in seg
  }

  /** The reference pattern finds no match: `s` has no `/`, or ends with one. */
  predicate RefUnmatched(s: string) {
    '/' !in s || (|s| > 0 && s[|s| - 1] == '/')
  }

  /** The last path segment of a reference, found by scanning back to its last `/`. */
  function RefSegment(s: string): Option<string> {
    match LastSlash(s)
    case None => None
    case Some(i) => if i == |s| - 1 then None else Some(s[i + 1..])
  }

  /** `RefSegment` finds exactly the pattern's capture, and nothing when the pattern does not match. */
  lemma RefSegmentMatches(s: string)
    ensures RefSegment(s).Some? ==> RefMatch(s, RefSegment(s).value)
    ensures forall seg {:trigger RefMatch(s, seg)} :: RefMatch(s, seg) ==> RefSegment(s) == Some(seg)
    ensures RefSegment(s).None? <==> RefUnmatched(s)
  {
    match LastSlash(s)
    case None =>
    case Some(i) => RefMatchIsLastSlash(s, i);
  }

  /** Any match of the reference pattern starts at the last `/`. */
  lemma RefMatchIsLastSlash(s: string, i: nat)
    requires i < |s| && s[i] == '/' && '/' !in s[i + 1..]
    ensures forall seg {:trigger RefMatch(s, seg)} :: RefMatch(s, seg) ==> seg == s[i + 1..]
    ensures RefUnmatched(s) <==> i == |s| - 1
  {
    forall seg | RefMatch(s, seg) ensures seg == s[i + 1..] {
      var j :| 0 <= j < |s| && s[j] == '/' && seg == s[j + 1..] && seg != [] && '/' !in seg;
      assert j == i;
    }
    if i < |s| - 1 {
      assert s[|s| - 1] == s[i + 1..][|s| - i - 2];
    }
  }

  /** A reference's target name after the table lookup: the table's entry if it has one, else the name itself. */
  function TranslateName(seg: string): string {
    if seg in Translations then Translations[seg] else seg
  }

  /**
    The output `type` of a field, given the type its `items` translated to:
    arrays first, then dates, then references, otherwise the declared type.
  */
  function Retype(f: Field, itemType: Option<string>): Option<string> {
    if f.items.Some? then Some("Array<" + TypeText(itemType) + ">")
    else if IsDate(f) then Some("Date")
    else if HasRef(f) then
      match RefSegment(f.ref.value)
      case Some(seg) => Some(TranslateName(seg))
      case None => f.typeName
    else f.typeName
  }

  /** The input field's attributes, its required flag, and the type `t`. */
  function Output(f: Field, ms: SwaggerModel, key: string, t: Option<string>): FieldOutput {
    FieldOutput(t, f.ref, f.format, f.items, f.others, IsRequired(ms, key))
  }

  /**
    The built-in field translator with `tr` as the configured translator:
    nested `items` are translated by `tr`, not by this function.
  */
  function TranslateField(tr: Translator, f: Field, ms: SwaggerModel, key: string): (r: FieldOutput)
    ensures r.required <==> IsRequired(ms, key)
    ensures r.ref == f.ref && r.format == f.format && r.items == f.items && r.others == f.others
    ensures f.items.Some? ==>
      r.typeName == Some("Array<" + TypeText(tr(f.items.value, ms, key).typeName) + ">")
    ensures f.items.None? && IsDate(f) ==> r.typeName == Some("Date")
    ensures f.items.None? && !IsDate(f) && HasRef(f) ==>
      forall seg {:trigger RefMatch(f.ref.value, seg)} ::
        RefMatch(f.ref.value, seg) ==> r.typeName == Some(if seg == "x-any" then "any" else seg)
    ensures f.items.None? && !IsDate(f) && HasRef(f) && RefUnmatched(f.ref.value) ==> r.typeName == f.typeName
    ensures f.items.None? && !IsDate(f) && !HasRef(f) ==> r.typeName == f.typeName
  {
    RefSegmentMatches(f.ref.ValueOr(""));
    Output(f, ms, key, Retype(f, if f.items.Some? then tr(f.items.value, ms, key).typeName else None))
  }

  /**
    The built-in translator as it runs when it is its own recursion target
    (the default configuration), by structural recursion on `items`.
  */
  function DefaultTranslate(f: Field, ms: SwaggerModel, key: string): (r: FieldOutput)
    ensures r.required <==> IsRequired(ms, key)
    ensures r.ref == f.ref && r.format == f.format && r.items == f.items && r.others == f.others
  {
    Output(f, ms, key, Retype(f, if f.items.Some? then DefaultTranslate(f.items.value, ms, key).typeName else None))
  }

  /** `DefaultTranslate` is a fixed point: configuring it as its own recursion target changes nothing. */
  lemma DefaultIsFixpoint(f: Field, ms: SwaggerModel, key: string)
    ensures DefaultTranslate(f, ms, key) == TranslateField(DefaultTranslate, f, ms, key)
  {
  }

  /** Any translator that is its own recursion target for the built-in rules agrees with `DefaultTranslate`. */
  lemma {:induction false} FixpointIsUnique(tr: Translator, f: Field, ms: SwaggerModel, key: string)
    requires forall g, m, k :: tr(g, m, k) == TranslateField(tr, g, m, k)
    ensures tr(f, ms, key) == DefaultTranslate(f, ms, key)
  {
    if f.items.Some? {
      FixpointIsUnique(tr, f.items.value, ms, key);
    }
  }

  /** `n` copies of `s`. */
  function Repeat(s: string, n: nat): string {
    if n == 0 then "" else s + Repeat(s, n - 1)
  }

  lemma {:induction false} RepeatSnoc(s: string, n: nat)
    ensures Repeat(s, n) + s == s + Repeat(s, n)
  {
    if n > 0 {
      RepeatSnoc(s, n - 1);
      calc {
        Repeat(s, n) + s;
        (s + Repeat(s, n - 1)) + s;
        s + (Repeat(s, n - 1) + s);
        s + (s + Repeat(s, n - 1));
      }
    }
  }

  /** `inner` wrapped in `n` array declarations. */
  function NestArray(inner: Field, n: nat): Field {
    if n == 0 then inner else ArrayOf(NestArray(inner, n - 1))
  }

  /** An array declaration whose items are `f`. */
  function ArrayOf(f: Field): Field {
    Field(Some("array"), None, None, Some(f), map[])
  }

  /** `t` enclosed in `n` layers of `open` ... `close`. */
  function Enclose(open: string, t: string, close: string, n: nat): string {
    if n == 0 then t else open + Enclose(open, t, close, n - 1) + close
  }

  lemma {:induction false} EncloseIsRepeat(open: string, t: string, close: string, n: nat)
    ensures Enclose(open, t, close, n) == Repeat(open, n) + t + Repeat(close, n)
  {
    if n == 0 {
      assert Repeat(open, 0) + t + Repeat(close, 0) == t;
    } else {
      var a, b := Repeat(open, n - 1), Repeat(close, n - 1);
      EncloseIsRepeat(open, t, close, n - 1);
      RepeatSnoc(close, n - 1);
      assert Enclose(open, t, close, n) == open + (a + t + b) + close;
      Regroup(open, a, t, b, close);
      assert Repeat(open, n) == open + a && Repeat(close, n) == b + close;
    }
  }

  lemma Regroup(p: string, a: string, t: string, b: string, q: string)
    ensures p + (a + t + b) + q == (p + a) + t + (b + q)
  {
    assert p + (a + t + b) + q == p + a + t + b + q;
  }

  /** One array level adds one `Array<...>` around the element's type. */
  lemma ArrayWrap(f: Field, ms: SwaggerModel, key: string)
    ensures TypeText(DefaultTranslate(ArrayOf(f), ms, key).typeName)
         == "Array<" + TypeText(DefaultTranslate(f, ms, key).typeName) + ">"
  {
  }

  /** The rendered type the default translator gives a field. */
  function TypeOf(ms: SwaggerModel, key: string): Field -> string {
    f => TypeText(DefaultTranslate(f, ms, key).typeName)
  }

  lemma WrapAll(ms: SwaggerModel, key: string)
    ensures forall f :: TypeOf(ms, key)(ArrayOf(f)) == "Array<" + TypeOf(ms, key)(f) + ">"
  {
    forall f ensures TypeOf(ms, key)(ArrayOf(f)) == "Array<" + TypeOf(ms, key)(f) + ">" {
      ArrayWrap(f, ms, key);
    }
  }

  /** Any rendering that wraps each array level renders `n` levels as `n` enclosures. */
  lemma {:induction false} EncloseByWrapping(ty: Field -> string, inner: Field, open: string, close: string, n: nat)
    requires forall f :: ty(ArrayOf(f)) == open + ty(f) + close
    ensures ty(NestArray(inner, n)) == Enclose(open, ty(inner), close, n)
  {
    if n > 0 {
      EncloseByWrapping(ty, inner, open, close, n - 1);
    }
  }

  /** Nested arrays translate innermost-first, one `Array<...>` per level. */
  lemma {:induction false} NestedArrayType(inner: Field, n: nat, ms: SwaggerModel, key: string)
    ensures TypeText(DefaultTranslate(NestArray(inner, n), ms, key).typeName)
         == Repeat("Array<", n) + TypeText(DefaultTranslate(inner, ms, key).typeName) + Repeat(">", n)
  {
    NestedArrayEnclose(inner, n, ms, key);
    EncloseIsRepeat("Array<", TypeText(DefaultTranslate(inner, ms, key).typeName), ">", n);
  }

  lemma NestedArrayEnclose(inner: Field, n: nat, ms: SwaggerModel, key: string)
    ensures TypeText(DefaultTranslate(NestArray(inner, n), ms, key).typeName)
         == Enclose("Array<", TypeText(DefaultTranslate(inner, ms, key).typeName), ">", n)
  {
    WrapAll(ms, key);
    EncloseByWrapping(TypeOf(ms, key), inner, "Array<", ">", n);
  }
}

=== FILE: generation.dfy ===
/** Rendering: one text per model, from its translated schema and the template data. */
module Generation {
  import opened Optional
  import opened Objects
  import opened Fields
  import opened Schemas
  import opened Options
  import opened Templates

  /** The template data with the model's name and translated schema laid over it. */
  function ModelContext(data: Context, modelName: string, schema: ModelSchema): (ctx: Context)
    ensures Lookup(ctx, "modelName") == Some(Text(modelName))
    ensures Lookup(ctx, "modelSchema") == Some(Typed(schema))
    ensures forall k {:trigger Lookup(ctx, k)} :: k != "modelName" && k != "modelSchema" ==> Lookup(ctx, k) == Lookup(data, k)
    ensures |data| <= |ctx| && Keys(ctx)[..|data|] == Keys(data)
  {
    var fixed: Context := [("modelName", Text(modelName)), ("modelSchema", Typed(schema))];
    assert Lookup(fixed, "modelSchema") == Some(Typed(schema));
    forall k | k != "modelName" && k != "modelSchema" ensures Lookup(fixed, k) == None {
      assert Lookup(fixed, k) == Lookup(fixed[1..], k);
      assert Lookup(fixed[1..], k) == Lookup(fixed[1..][1..], k);
      assert fixed[1..][1..] == [];
    }
    Spread(data, fixed)
  }

  /** The context after the optional `preTemplateFn`. */
  function HookedContext(c: Config, modelName: string, ms: SwaggerModel): Context {
    var ctx := ModelContext(c.templateData, modelName, TranslateSchema(c.translateField, ms));
    match c.preTemplateFn
    case Some(hook) => hook(ctx)
    case None => ctx
  }

  /** Renders one model; rendering with no template function fails. */
  function GenerateJS(modelName: string, ms: SwaggerModel, c: Config): (r: Result<string, Error>)
    ensures r.Failure? <==> c.templateFn.None?
    ensures r.Failure? ==> r.error == NotAFunction
    ensures r.Success? ==> r.value == c.templateFn.value(HookedContext(c, modelName, ms))
  {
    match c.templateFn
    case None => Failure(NotAFunction)
    case Some(render) => Success(render(HookedContext(c, modelName, ms)))
  }

  /** Renders every model in order with the configured `templateFn`. */
  function RenderEntries(models: seq<Entry<SwaggerModel>>, c: Config): (r: seq<Entry<string>>)
    requires c.templateFn.Some?
    ensures Keys(r) == Keys(models)
    ensures forall i :: 0 <= i < |models| ==> GenerateJS(models[i].0, models[i].1, c) == Success(r[i].1)
  {
    if |models| == 0 then []
    else [(models[0].0, GenerateJS(models[0].0, models[0].1, c).value)] + RenderEntries(models[1..], c)
  }

  /**
    Renders every model of the schema map: the result object has exactly
    the schema's model names as keys, in the same order, each mapped to its
    rendered text. With `templateFn` unset, the first model's render throws.
  */
  function GenerateAllResults(schemata: Obj<SwaggerModel>, c: Config): (r: Result<Obj<string>, Error>)
    ensures r.Failure? <==> |schemata| > 0 && c.templateFn.None?
    ensures r.Failure? ==> r.error == NotAFunction
    ensures r.Success? ==> Keys(r.value) == Keys(schemata)
    ensures r.Success? ==> forall i :: 0 <= i < |schemata| ==>
      Lookup(r.value, schemata[i].0) == Some(c.templateFn.value(HookedContext(c, schemata[i].0, schemata[i].1)))
  {
    if c.templateFn.None? then
      if |schemata| == 0 then Success([]) else Failure(NotAFunction)
    else
      var entries := RenderEntries(schemata, c);
      assert UniqueKeys(entries) by {
        forall i, j | 0 <= i < j < |entries| ensures entries[i].0 != entries[j].0 {
          assert Keys(entries)[i] == schemata[i].0 && Keys(entries)[j] == schemata[j].0;
        }
      }
      forall i | 0 <= i < |schemata|
        ensures Lookup(entries, schemata[i].0) == Some(c.templateFn.value(HookedContext(c, schemata[i].0, schemata[i].1)))
      {
        assert entries[i].0 == Keys(entries)[i];
        LookupAt(entries, i);
      }
      Success(entries)
  }

  /**
    A `preTemplateFn` that renames the model is what any template sees: the
    context it renders carries the hook's name, not the schema's key.
  */
  lemma HookRenameReflected(c: Config, modelName: string, ms: SwaggerModel, newName: string)
    requires c.preTemplateFn.Some?
    requires forall ctx: Context :: Lookup(c.preTemplateFn.value(ctx), "modelName") == Some(Text(newName))
    ensures var ctx := HookedContext(c, modelName, ms);
      && Lookup(ctx, "modelName") == Some(Text(newName))
      && GenerateJS(modelName, ms, c) == (if c.templateFn.Some? then Success(c.templateFn.value(ctx)) else Failure(NotAFunction))
  {
  }

  /** Without a hook, the template sees the model's own name and translated schema over the template data. */
  lemma ContextWithoutHook(c: Config, modelName: string, ms: SwaggerModel)
    requires c.preTemplateFn.None?
    ensures var ctx := HookedContext(c, modelName, ms);
      && Lookup(ctx, "modelName") == Some(Text(modelName))
      && Lookup(ctx, "modelSchema") == Some(Typed(TranslateSchema(c.translateField, ms)))
      && forall k {:trigger Lookup(c.templateData, k)} :: k != "modelName" && k != "modelSchema" ==>
           Lookup(ctx, k) == Lookup(c.templateData, k)
  {
  }
}

=== FILE: objects.dfy ===
/**
  Plain JavaScript objects, as the generator uses them for schemata, property
  maps, template contexts and result maps: own keys in `Object.keys` order,
  each key at most once.
*/
module Objects {
  import opened Optional

  /** One own property: its key and its value. */
  type Entry<V> = (string, V)

  /** No key occurs twice. */
  predicate UniqueKeys<V>(s: seq<Entry<V>>) {
    forall i, j :: 0 <= i < j < |s| ==> s[i].0 != s[j].0
  }

  /** A plain object, its entries listed in insertion order. */
  type Obj<V> = s: seq<Entry<V>> | UniqueKeys(s) witness []

  /** The own keys, in order. */
  function Keys<V>(s: seq<Entry<V>>): (ks: seq<string>)
    ensures |ks| == |s|
    ensures forall i :: 0 <= i < |s| ==> ks[i] == s[i].0
  {
    seq(|s|, i requires 0 <= i < |s| => s[i].0)
  }

  /** The value of the own property `k`, if there is one. */
  function Lookup<V>(s: seq<Entry<V>>, k: string): Option<V> {
    if |s| == 0 then None
    else if s[0].0 == k then Some(s[0].1)
    else Lookup(s[1..], k)
  }

  /** Every listed entry is what a property read returns. */
  lemma {:induction false} LookupAt<V>(s: seq<Entry<V>>, i: nat)
    requires UniqueKeys(s)
    requires i < |s|
    ensures Lookup(s, s[i].0) == Some(s[i].1)
  {
    if i > 0 {
      assert s[0].0 != s[i].0;
      LookupAt(s[1..], i - 1);
    }
  }

  /** A property read misses exactly when the key is not listed. */
  lemma {:induction false} LookupAbsent<V>(s: seq<Entry<V>>, k: string)
    ensures Lookup(s, k).None? <==> k !in Keys(s)
  {
    if |s| > 0 {
      LookupAbsent(s[1..], k);
      assert Keys(s) == [s[0].0] + Keys(s[1..]);
    }
  }

  /** Reading from a concatenation finds the first list's entry first. */
  lemma {:induction false} LookupAppend<V>(a: seq<Entry<V>>, b: seq<Entry<V>>, k: string)
    ensures Lookup(a + b, k) == Lookup(a, k).OrElse(Lookup(b, k))
  {
    if |a| == 0 {
      assert a + b == b;
    } else {
      assert (a + b)[1..] == a[1..] + b;
      LookupAppend(a[1..], b, k);
    }
  }

  /** Two key-disjoint objects concatenate to an object. */
  lemma UniqueConcat<V>(a: seq<Entry<V>>, b: seq<Entry<V>>)
    requires UniqueKeys(a) && UniqueKeys(b)
    requires forall e :: e in b ==> e.0 !in Keys(a)
    ensures UniqueKeys(a + b)
  {
    forall i, j | 0 <= i < j < |a + b|
      ensures (a + b)[i].0 != (a + b)[j].0
    {
      if i < |a| <= j {
        assert (a + b)[j] == b[j - |a|];
        assert b[j - |a|] in b;
        assert Keys(a)[i] == (a + b)[i].0;
      }
    }
  }

  /** The entries of `s` whose key is not among `ks`, in order. */
  function Without<V>(s: seq<Entry<V>>, ks: seq<string>): (r: seq<Entry<V>>)
    ensures forall e :: e in r ==> e in s && e.0 !in ks
    ensures UniqueKeys(s) ==> UniqueKeys(r)
    ensures forall k {:trigger Lookup(r, k)} :: Lookup(r, k) == if k in ks then None else Lookup(s, k)
  {
    if |s| == 0 then []
    else if s[0].0 in ks then Without(s[1..], ks)
    else
      var rest := Without(s[1..], ks);
      assert UniqueKeys(s) ==> forall e :: e in rest ==> e.0 != s[0].0 by {
        if UniqueKeys(s) {
          forall e | e in rest ensures e.0 != s[0].0 {
            var j :| 0 <= j < |s[1..]| && s[1..][j] == e;
            assert s[j + 1] == e;
          }
        }
      }
      assert ([s[0]] + rest)[1..] == rest;
      [s[0]] + rest
  }

  /** Spreading `over` onto `base`: base's keys keep their places, over's values win, over's new keys follow. */
  function Spread<V>(base: Obj<V>, over: Obj<V>): (r: Obj<V>)
    ensures forall k {:trigger Lookup(r, k)} :: Lookup(r, k) == Lookup(over, k).OrElse(Lookup(base, k))
    ensures |base| <= |r| && Keys(r)[..|base|] == Keys(base)
  {
    var kept := seq(|base|, i requires 0 <= i < |base| => (base[i].0, Lookup(over, base[i].0).ValueOr(base[i].1)));
    var added := Without(over, Keys(base));
    assert Keys(kept) == Keys(base);
    UniqueConcat(kept, added);
    SpreadLookup(base, over, kept, added);
    assert Keys(kept + added)[..|base|] == Keys(base);
    kept + added
  }

  /** The read law of `Spread`, proved over its two parts. */
  lemma SpreadLookup<V>(base: Obj<V>, over: Obj<V>, kept: seq<Entry<V>>, added: seq<Entry<V>>)
    requires kept == seq(|base|, i requires 0 <= i < |base| => (base[i].0, Lookup(over, base[i].0).ValueOr(base[i].1)))
    requires added == Without(over, Keys(base))
    ensures forall k :: Lookup(kept + added, k) == Lookup(over, k).OrElse(Lookup(base, k))
  {
    assert Keys(kept) == Keys(base);
    forall k ensures Lookup(kept + added, k) == Lookup(over, k).OrElse(Lookup(base, k)) {
      LookupAppend(kept, added, k);
      LookupAbsent(base, k);
      LookupAbsent(kept, k);
      if k in Keys(base) {
        var i :| 0 <= i < |base| && Keys(base)[i] == k;
        LookupAt(kept, i);
        LookupAt(base, i);
      }
    }
  }
}

=== FILE: optional.dfy ===
/** Option and Result: absent-or-present values and success-or-failure outcomes. */
module Optional {

  /** A JavaScript property that is either present or absent. */
  datatype Option<+T> = None | Some(value: T) {

    /** The present value, or `default` when absent. */
    function ValueOr(default: T): T {
      match this
      case Some(v) => v
      case None => default
    }

    /** This option when present, otherwise `other`. */
    function OrElse(other: Option<T>): Option<T> {
      match this
      case Some(_) => this
      case None => other
    }
  }

  /** The outcome of a step that may throw or reject. */
  datatype Result<+R, +E> = Success(value: R) | Failure(error: E)
}

=== FILE: options.dfy ===
/** The generator's options: defaults, caller overrides, and template data. */
module Options {
  import opened Optional
  import opened Objects
  import opened Fields
  import opened Writer

  /** A template-data value: text, a translated model schema, or raw field definitions. */
  datatype Value = Text(text: string) | Typed(schema: Obj<FieldOutput>) | Raw(fields: Obj<Field>)

  /** The data object a template is rendered from. */
  type Context = Obj<Value>

  /** A compiled template (`templateFn`). */
  type Renderer = Context -> string

  /** The `preTemplateFn` hook: receives the context, returns the one to render. */
  type Hook = Context -> Context

  /** The options after merging, as `generateDefinitions` uses them. */
  datatype Config = Config(
    templatePath: string,
    templateData: Context,
    templateExtension: string,
    targetPath: Option<Target>,
    translateField: Translator,
    preTemplateFn: Option<Hook>,
    templateFn: Option<Renderer>)

  /** The caller's options; `None` marks a key the caller did not supply. */
  datatype UserOptions = UserOptions(
    templatePath: Option<string>,
    templateData: Option<Context>,
    templateExtension: Option<string>,
    targetPath: Option<Target>,
    translateField: Option<Translator>,
    preTemplateFn: Option<Hook>,
    templateFn: Option<Renderer>)

  /** The default template data: no additional types, and the `Model` superclass at `models/_model`. */
  const DefaultTemplateData: Context :=
    [("additionalTypes", Raw([])), ("modelSuperClass", Text("Model")), ("modelSuperClassPath", Text("models/_model"))]

  /** The default output file extension. */
  const DefaultExtension: string := ".js.flow"

  /**
    The caller's options over the defaults, key by key; template data is merged
    one level deeper, the caller's entries over the default ones.
    `bundledTemplate` is the default `templatePath` (the package's own `template.ejs`).
  */
  function MergeOptions(bundledTemplate: string, user: UserOptions): (c: Config)
    ensures c.templatePath == user.templatePath.ValueOr(bundledTemplate)
    ensures c.templateExtension == user.templateExtension.ValueOr(DefaultExtension)
    ensures c.targetPath == user.targetPath
    ensures user.translateField.Some? ==> c.translateField == user.translateField.value
    ensures user.translateField.None? ==> c.translateField == DefaultTranslate
    ensures c.preTemplateFn == user.preTemplateFn
    ensures c.templateFn == user.templateFn
    ensures forall k {:trigger Lookup(c.templateData, k)} ::
      Lookup(c.templateData, k) == Lookup(user.templateData.ValueOr([]), k).OrElse(Lookup(DefaultTemplateData, k))
    ensures |DefaultTemplateData| <= |c.templateData|
    ensures Keys(c.templateData)[..|DefaultTemplateData|] == Keys(DefaultTemplateData)
  {
    Config(
      user.templatePath.ValueOr(bundledTemplate),
      Spread(DefaultTemplateData, user.templateData.ValueOr([])),
      user.templateExtension.ValueOr(DefaultExtension),
      user.targetPath,
      user.translateField.ValueOr(DefaultTranslate),
      user.preTemplateFn,
      user.templateFn)
  }
}

=== FILE: pipeline.dfy ===
/**
  `generateDefinitions`: merge options, resolve the template, render every
  model, and write the results when a target is configured.
*/
module Pipeline {
  import opened Optional
  import opened Objects
  import opened Fields
  import opened Writer
  import opened Options
  import opened Templates
  import opened Generation

  /**
    What the run depends on outside the model: the package's bundled template
    path, the template loader, the platform's path join, and which file writes succeed.
  */
  datatype Env = Env(
    bundledTemplate: string,
    load: Loader,
    join: (string, string) -> string,
    accepts: Write -> bool)

  /** The settled promise, the writes issued, and the template cache afterwards. */
  datatype Outcome = Outcome(result: Result<Obj<string>, Error>, writes: seq<Write>, cache: TemplateCache)

  /**
    The tail of `generateDefinitions` once every model is rendered: with a
    target, issue every write and settle them together; without one, return.
  */
  function Deliver(results: Obj<string>, target: Option<Target>, extension: string, env: Env)
    : (o: (Result<Obj<string>, Error>, seq<Write>))
    ensures !ShouldWrite(target) ==> o == (Success(results), [])
    ensures ShouldWrite(target) ==> o.1 == WriteAllResults(target.value, results, extension, env.join)
    ensures o.0.Success? ==> o.0.value == results && forall i :: 0 <= i < |o.1| ==> env.accepts(o.1[i])
    ensures o.0.Failure? ==> exists i :: 0 <= i < |o.1| && !env.accepts(o.1[i]) && o.0.error == WriteFailed(o.1[i].path)
  {
    if !ShouldWrite(target) then (Success(results), [])
    else
      var writes := WriteAllResults(target.value, results, extension, env.join);
      match Settle(writes, env.accepts)
      case None => (Success(results), writes)
      case Some(failed) => (Failure(WriteFailed(failed.path)), writes)
  }

  /** Render every model with the resolved configuration, then deliver the results. */
  function Run(schemata: Obj<SwaggerModel>, c: Config, env: Env): (o: (Result<Obj<string>, Error>, seq<Write>))
    ensures o.0.Success? ==> o.0 == GenerateAllResults(schemata, c)
    ensures o.0.Failure? ==> o.0.error.WriteFailed? || GenerateAllResults(schemata, c).Failure?
    ensures GenerateAllResults(schemata, c).Failure? ==> o == (GenerateAllResults(schemata, c), [])
    ensures !ShouldWrite(c.targetPath) ==> o.1 == []
    ensures o.1 != [] ==> ShouldWrite(c.targetPath) && GenerateAllResults(schemata, c).Success?
    ensures o.1 != [] ==> o.1 == WriteAllResults(c.targetPath.value, GenerateAllResults(schemata, c).value,
                                                 c.templateExtension, env.join)
    ensures ShouldWrite(c.targetPath) && GenerateAllResults(schemata, c).Success? && |schemata| > 0 ==> o.1 != []
    ensures o.0.Success? ==> forall i :: 0 <= i < |o.1| ==> env.accepts(o.1[i])
    ensures o.0.Failure? && o.1 != [] ==>
      exists i :: 0 <= i < |o.1| && !env.accepts(o.1[i]) && o.0.error == WriteFailed(o.1[i].path)
    ensures o.0.Success? <==> GenerateAllResults(schemata, c).Success? && forall i :: 0 <= i < |o.1| ==> env.accepts(o.1[i])
  {
    match GenerateAllResults(schemata, c)
    case Failure(e) => (Failure(e), [])
    case Success(results) => Deliver(results, c.targetPath, c.templateExtension, env)
  }

  /** One generation run over a schema map with the caller's options, against the template cache `cache`. */
  function Generate(schemata: Obj<SwaggerModel>, user: UserOptions, env: Env, cache: TemplateCache): (o: Outcome)
    ensures var c := MergeOptions(env.bundledTemplate, user);
      ResolveTemplate(c, cache, env.load).Failure? ==> o.result.Failure? && o.writes == [] && o.cache == cache
    ensures o.result.Success? ==> Keys(o.result.value) == Keys(schemata)
    ensures o.result.Failure? && o.result.error.LoadFailed? ==> user.templateFn.None? && o.writes == []
    ensures o.result.Failure? && o.result.error == NotAFunction ==>
      |schemata| > 0 && user.templateFn.None? && MergeOptions(env.bundledTemplate, user).templatePath == ""
    ensures !ShouldWrite(user.targetPath) ==> o.writes == []
    ensures o.result.Failure? && o.writes != [] ==>
      exists i :: 0 <= i < |o.writes| && !env.accepts(o.writes[i]) && o.result.error == WriteFailed(o.writes[i].path)
    ensures var c := MergeOptions(env.bundledTemplate, user);
      o.result.Success? <==>
        && ResolveTemplate(c, cache, env.load).Success?
        && !(|schemata| > 0 && user.templateFn.None? && c.templatePath == "")
        && forall i :: 0 <= i < |o.writes| ==> env.accepts(o.writes[i])
  {
    var c := MergeOptions(env.bundledTemplate, user);
    Complete(schemata, c, ResolveTemplate(c, cache, env.load), env, cache)
  }

  /**
    The run once template resolution has settled: a resolution failure ends it
    with no writes; otherwise the models are rendered with the resolved
    template, delivered, and the resolution's cache is handed back.
  */
  function Complete(schemata: Obj<SwaggerModel>, c: Config, resolved: Result<Resolved, Error>, env: Env,
                    cache: TemplateCache): (o: Outcome)
    ensures resolved.Failure? ==> o == Outcome(Failure(resolved.error), [], cache)
    ensures resolved.Success? ==> o.cache == resolved.value.cache
    ensures o.result.Success? ==> Keys(o.result.value) == Keys(schemata)
    ensures resolved.Success? && o.result.Success? ==> resolved.value.render.Some? || |schemata| == 0
    ensures resolved.Success? && o.result.Success? && resolved.value.render.Some? ==>
      forall i :: 0 <= i < |schemata| ==>
        Lookup(o.result.value, schemata[i].0) == Some(resolved.value.render.value(HookedContext(c, schemata[i].0, schemata[i].1)))
    ensures resolved.Success? && o.result.Failure? && !o.result.error.WriteFailed? ==>
      o.result.error == NotAFunction && |schemata| > 0 && resolved.value.render.None?
    ensures !ShouldWrite(c.targetPath) ==> o.writes == []
    ensures o.result.Failure? && o.writes != [] ==>
      exists i :: 0 <= i < |o.writes| && !env.accepts(o.writes[i]) && o.result.error == WriteFailed(o.writes[i].path)
    ensures o.result.Success? <==>
      && resolved.Success?
      && !(|schemata| > 0 && resolved.value.render.None?)
      && forall i :: 0 <= i < |o.writes| ==> env.accepts(o.writes[i])
  {
    match resolved
    case Failure(e) => Outcome(Failure(e), [], cache)
    case Success(r) =>
      var ready := c.(templateFn := r.render);
      var ran := Run(schemata, ready, env);
      Outcome(ran.0, ran.1, r.cache)
  }

  /**
    The cache a run hands back is the one template resolution left, whether or
    not a write is later rejected: the template is stored before any write is
    issued. Only the merged template path can be added; a cached path leaves the
    cache as it was, and a miss adds exactly the loader's template.
  */
  lemma GenerateCache(schemata: Obj<SwaggerModel>, user: UserOptions, env: Env, cache: TemplateCache)
    ensures var o := Generate(schemata, user, env, cache);
      user.templateFn.Some? ==> o.cache == cache
    ensures var o := Generate(schemata, user, env, cache);
      forall p :: p in cache ==> p in o.cache && o.cache[p] == cache[p]
    ensures var o := Generate(schemata, user, env, cache);
      var c := MergeOptions(env.bundledTemplate, user);
      user.templateFn.None? && c.templatePath != "" && c.templatePath !in cache && o.result.Success? ==>
        env.load(c.templatePath).Success? && o.cache[c.templatePath] == env.load(c.templatePath).value
    ensures var o := Generate(schemata, user, env, cache);
      var c := MergeOptions(env.bundledTemplate, user);
      ResolveTemplate(c, cache, env.load).Success? ==> o.cache == ResolveTemplate(c, cache, env.load).value.cache
    ensures var o := Generate(schemata, user, env, cache);
      var c := MergeOptions(env.bundledTemplate, user);
      && o.cache.Keys <= cache.Keys + {c.templatePath}
      && (c.templatePath in cache ==> o.cache == cache)
      && (user.templateFn.None? && c.templatePath != "" && c.templatePath !in cache && env.load(c.templatePath).Success? ==>
            o.cache == cache[c.templatePath := env.load(c.templatePath).value])
  {
  }

  /**
    What a successful run returns for each model: the caller's `templateFn`
    applied to the model's context when one was given, and otherwise the
    template cached under the merged template path.
  */
  lemma GenerateResults(schemata: Obj<SwaggerModel>, user: UserOptions, env: Env, cache: TemplateCache)
    ensures var o := Generate(schemata, user, env, cache);
      var c := MergeOptions(env.bundledTemplate, user);
      user.templateFn.Some? && o.result.Success? ==> forall i :: 0 <= i < |schemata| ==>
        Lookup(o.result.value, schemata[i].0) == Some(user.templateFn.value(HookedContext(c, schemata[i].0, schemata[i].1)))
    ensures var o := Generate(schemata, user, env, cache);
      var c := MergeOptions(env.bundledTemplate, user);
      user.templateFn.None? && c.templatePath != "" && o.result.Success? ==>
        && c.templatePath in o.cache
        && forall i :: 0 <= i < |schemata| ==>
             Lookup(o.result.value, schemata[i].0) == Some(o.cache[c.templatePath](HookedContext(c, schemata[i].0, schemata[i].1)))
  {
  }

  /** The writes of `Run`, stated against the configuration it was given. */
  lemma RunWrites(schemata: Obj<SwaggerModel>, c: Config, env: Env)
    ensures var o := Run(schemata, c, env);
      && (o.1 != [] ==> ShouldWrite(c.targetPath) && |o.1| == |schemata|)
      && (o.1 != [] ==> forall i :: 0 <= i < |schemata| ==>
            o.1[i].path == Destination(c.targetPath.value, schemata[i].0, c.templateExtension, env.join))
      && (o.0.Success? && o.1 != [] ==> forall i :: 0 <= i < |schemata| ==>
            o.1[i].content == o.0.value[i].1 && env.accepts(o.1[i]))
  {
    var o := Run(schemata, c, env);
    if o.1 != [] {
      var results := GenerateAllResults(schemata, c).value;
      assert forall i :: 0 <= i < |results| ==> results[i].0 == Keys(results)[i] == schemata[i].0;
    }
  }

  /** Every write of `Run` carries its model's rendered text, whether or not the run succeeds. */
  lemma RunWriteContents(schemata: Obj<SwaggerModel>, c: Config, env: Env)
    ensures var o := Run(schemata, c, env);
      o.1 != [] ==> forall i :: 0 <= i < |schemata| ==>
        o.1[i].content == c.templateFn.value(HookedContext(c, schemata[i].0, schemata[i].1))
  {
    var o := Run(schemata, c, env);
    if o.1 != [] {
      var results := RenderEntries(schemata, c);
      assert GenerateAllResults(schemata, c) == Success(results);
      assert forall i :: 0 <= i < |schemata| ==> o.1[i].content == results[i].1;
    }
  }

  /**
    The writes of a run: only with a target, one per model in order, each at
    that model's destination and carrying its rendered text, whether or not
    another write is rejected; a successful run had every write accepted, and a
    run that rendered all models writes them all.
  */
  lemma GenerateWrites(schemata: Obj<SwaggerModel>, user: UserOptions, env: Env, cache: TemplateCache)
    ensures var o := Generate(schemata, user, env, cache);
      && (o.writes != [] ==> ShouldWrite(user.targetPath) && |o.writes| == |schemata|)
      && (o.writes != [] ==> forall i :: 0 <= i < |schemata| ==>
            o.writes[i].path == Destination(user.targetPath.value, schemata[i].0,
                                            user.templateExtension.ValueOr(DefaultExtension), env.join))
      && (o.result.Success? && o.writes != [] ==> forall i :: 0 <= i < |schemata| ==>
            o.writes[i].content == o.result.value[i].1 && env.accepts(o.writes[i]))
      && (o.result.Success? && ShouldWrite(user.targetPath) && |schemata| > 0 ==> o.writes != [])
      && (o.writes != [] ==> forall i :: 0 <= i < |schemata| ==>
            var c := MergeOptions(env.bundledTemplate, user);
            o.writes[i].content == ResolveTemplate(c, cache, env.load).value.render.value(HookedContext(c, schemata[i].0, schemata[i].1)))
  {
    var c := MergeOptions(env.bundledTemplate, user);
    var resolved := ResolveTemplate(c, cache, env.load);
    if resolved.Success? {
      var ready := c.(templateFn := resolved.value.render);
      RunWrites(schemata, ready, env);
      RunWriteContents(schemata, ready, env);
    }
  }
}

=== FILE: schemas.dfy ===
/** Schema translation: one model's property map through the configured translator. */
module Schemas {
  import opened Optional
  import opened Objects
  import opened Fields

  /** A translated model: property name to translated field. */
  type ModelSchema = Obj<FieldOutput>

  /** The model's properties; a model without them has none. */
  function Properties(ms: SwaggerModel): Obj<Field> {
    ms.properties.ValueOr([])
  }

  /** Translates `props`, entry by entry, keeping keys and their order. */
  function TranslateEntries(tr: Translator, ms: SwaggerModel, props: seq<Entry<Field>>): (r: seq<Entry<FieldOutput>>)
    ensures Keys(r) == Keys(props)
    ensures forall i :: 0 <= i < |props| ==> r[i].1 == tr(props[i].1, ms, props[i].0)
  {
    if |props| == 0 then []
    else [(props[0].0, tr(props[0].1, ms, props[0].0))] + TranslateEntries(tr, ms, props[1..])
  }

  /**
    A model's properties translated with `tr` as the configured translator:
    one entry per property key, each the translator's result for that key.
  */
  function TranslateSchema(tr: Translator, ms: SwaggerModel): (r: ModelSchema)
    ensures Keys(r) == Keys(Properties(ms))
    ensures forall k {:trigger Lookup(r, k)} :: Lookup(r, k).None? <==> Lookup(Properties(ms), k).None?
    ensures forall i :: 0 <= i < |Properties(ms)| ==>
      Lookup(r, Properties(ms)[i].0) == Some(tr(Properties(ms)[i].1, ms, Properties(ms)[i].0))
    ensures ms.properties.None? ==> r == []
  {
    var props := Properties(ms);
    var r := TranslateEntries(tr, ms, props);
    assert UniqueKeys(r) by {
      forall i, j | 0 <= i < j < |r| ensures r[i].0 != r[j].0 {
        assert Keys(r)[i] == props[i].0 && Keys(r)[j] == props[j].0;
      }
    }
    forall k ensures Lookup(r, k).None? <==> Lookup(props, k).None? {
      LookupAbsent(r, k);
      LookupAbsent(props, k);
    }
    forall i | 0 <= i < |props| ensures Lookup(r, props[i].0) == Some(tr(props[i].1, ms, props[i].0)) {
      assert r[i].0 == Keys(r)[i];
      LookupAt(r, i);
    }
    r
  }
}

=== FILE: templates.dfy ===
/**
  Choosing the render function: the caller's `templateFn`, or the template
  at `templatePath`, compiled once and kept in a cache keyed by path.
*/
module Templates {
  import opened Optional
  import opened Options

  /** The compiled-template cache: path to compiled renderer. */
  type TemplateCache = map<string, Renderer>

  /** Reading and compiling a template file; a failure carries its reason. */
  type Loader = string -> Result<Renderer, string>

  /** Why a generation run failed. */
  datatype Error =
    | LoadFailed(path: string, reason: string)   // reading or compiling the template
    | NotAFunction                                // `options.templateFn` is unset when a model is rendered
    | WriteFailed(path: string)                   // a `writeFile` rejected

  /** The render function to use (if any) and the cache afterwards. */
  datatype Resolved = Resolved(render: Option<Renderer>, cache: TemplateCache)

  /**
    Only without a caller `templateFn` and with a non-empty template path is a
    template looked up: a cache miss loads and inserts, a hit reuses; an empty
    path leaves `templateFn` unset.
  */
  function ResolveTemplate(c: Config, cache: TemplateCache, load: Loader): (r: Result<Resolved, Error>)
    ensures c.templateFn.Some? ==> r == Success(Resolved(c.templateFn, cache))
    ensures c.templateFn.None? && c.templatePath == "" ==> r == Success(Resolved(None, cache))
    ensures c.templateFn.None? && c.templatePath in cache ==>
      r == Success(Resolved(if c.templatePath == "" then None else Some(cache[c.templatePath]), cache))
    ensures r.Failure? <==>
      c.templateFn.None? && c.templatePath != "" && c.templatePath !in cache && load(c.templatePath).Failure?
    ensures r.Failure? ==> r.error == LoadFailed(c.templatePath, load(c.templatePath).error)
    ensures r.Success? ==> r.value.render.Some? <==> c.templateFn.Some? || c.templatePath != ""
    ensures r.Success? ==> forall p :: p in cache ==> p in r.value.cache && r.value.cache[p] == cache[p]
    ensures r.Success? ==> r.value.cache.Keys <= cache.Keys + {c.templatePath}
    ensures r.Success? && c.templateFn.None? && c.templatePath != "" ==>
      c.templatePath in r.value.cache && r.value.render == Some(r.value.cache[c.templatePath])
    ensures c.templateFn.None? && c.templatePath != "" && c.templatePath !in cache && load(c.templatePath).Success? ==>
      r == Success(Resolved(Some(load(c.templatePath).value), cache[c.templatePath := load(c.templatePath).value]))
  {
    if c.templateFn.Some? then Success(Resolved(c.templateFn, cache))
    else if c.templatePath == "" then Success(Resolved(None, cache))
    else if c.templatePath in cache then Success(Resolved(Some(cache[c.templatePath]), cache))
    else match load(c.templatePath)
      case Failure(reason) => Failure(LoadFailed(c.templatePath, reason))
      case Success(compiled) => Success(Resolved(Some(compiled), cache[c.templatePath := compiled]))
  }

  /**
    A template is compiled at most once per path: resolving again against the
    cache the first resolution left behind reuses it, whatever the loader would do.
  */
  lemma ResolveIsCached(c: Config, cache: TemplateCache, load: Loader, reload: Loader)
    requires ResolveTemplate(c, cache, load).Success?
    ensures var first := ResolveTemplate(c, cache, load).value;
      ResolveTemplate(c, first.cache, reload) == Success(first)
  {
  }
}

=== FILE: writer.dfy ===
/** The output writer: where each rendered model is written. */
module Writer {
  import opened Optional
  import opened Objects

  /** The `targetPath` option: a directory, or a function from model name to file path. */
  datatype Target = Dir(dir: string) | Namer(name: string -> string)

  /** One file write the writer issues: its path and its content. */
  datatype Write = Write(path: string, content: string)

  /** Whether a target is configured: an absent target, or an empty directory string, means "do not write". */
  predicate ShouldWrite(target: Option<Target>) {
    target.Some? && (target.value.Namer? || target.value.dir != "")
  }

  /** The file a model is written to; `join` is the platform's path join. */
  function Destination(target: Target, modelName: string, extension: string, join: (string, string) -> string): string {
    match target
    case Namer(name) => name(modelName)
    case Dir(dir) => join(dir, modelName + extension)
  }

  /** One write per result key, in key order, each carrying that key's text. */
  function WriteAllResults(target: Target, results: seq<Entry<string>>, extension: string,
                           join: (string, string) -> string): (ws: seq<Write>)
    ensures |ws| == |results|
    ensures forall i :: 0 <= i < |results| ==> ws[i].content == results[i].1
    ensures forall i :: 0 <= i < |results| ==>
      ws[i].path == (if target.Namer? then target.name(results[i].0) else join(target.dir, results[i].0 + extension))
  {
    if |results| == 0 then []
    else [Write(Destination(target, results[0].0, extension, join), results[0].1)]
         + WriteAllResults(target, results[1..], extension, join)
  }

  /**
    `Promise.all` over the writes: success when every write is accepted,
    otherwise the failure of a rejected one (the first in key order).
  */
  function Settle(writes: seq<Write>, accepts: Write -> bool): (r: Option<Write>)
    ensures r.None? <==> forall i :: 0 <= i < |writes| ==> accepts(writes[i])
    ensures r.Some? ==> r.value in writes && !accepts(r.value)
  {
    if |writes| == 0 then None
    else if !accepts(writes[0]) then Some(writes[0])
    else Settle(writes[1..], accepts)
  }

  lemma SuffixCancel(a: string, b: string, extension: string)
    requires a + extension == b + extension
    ensures a == b
  {
    assert a == (a + extension)[..|a|];
    assert b == (b + extension)[..|b|];
  }

  /** Into a directory, distinct model names give distinct files when the join is injective. */
  lemma {:induction false} DirDestinationsDistinct(dir: string, results: Obj<string>, extension: string,
                                                    join: (string, string) -> string)
    requires forall a, b :: join(dir, a) == join(dir, b) ==> a == b
    ensures var ws := WriteAllResults(Dir(dir), results, extension, join);
      forall i, j :: 0 <= i < j < |ws| ==> ws[i].path != ws[j].path
  {
    var ws := WriteAllResults(Dir(dir), results, extension, join);
    forall i, j | 0 <= i < j < |ws| ensures ws[i].path != ws[j].path {
      var a, b := results[i].0, results[j].0;
      assert a != b;
      assert ws[i].path == join(dir, a + extension);
      assert ws[j].path == join(dir, b + extension);
      if ws[i].path == ws[j].path {
        SuffixCancel(a, b, extension);
      }
    }
  }

  /** Through a naming function, distinct model names give distinct files when it is injective on them. */
  lemma {:induction false} NamerDestinationsDistinct(name: string -> string, results: Obj<string>, extension: string,
                                                      join: (string, string) -> string)
    requires forall a, b :: a in Keys(results) && b in Keys(results) && name(a) == name(b) ==> a == b
    ensures var ws := WriteAllResults(Namer(name), results, extension, join);
      forall i, j :: 0 <= i < j < |ws| ==> ws[i].path != ws[j].path
  {
    var ws := WriteAllResults(Namer(name), results, extension, join);
    forall i, j | 0 <= i < j < |ws| ensures ws[i].path != ws[j].path {
      assert Keys(results)[i] == results[i].0 && Keys(results)[j] == results[j].0;
    }
  }

  /**
    No two models are written to the same file, provided the paths the
    target produces from distinct names differ.
  */
  lemma DestinationsDistinct(target: Target, results: Obj<string>, extension: string,
                             join: (string, string) -> string)
    requires target.Dir? ==> forall a, b :: join(target.dir, a) == join(target.dir, b) ==> a == b
    requires target.Namer? ==> forall a, b :: a in Keys(results) && b in Keys(results) && target.name(a) == target.name(b) ==> a == b
    ensures var ws := WriteAllResults(target, results, extension, join);
      forall i, j :: 0 <= i < j < |ws| ==> ws[i].path != ws[j].path
  {
    match target
    case Dir(dir) => DirDestinationsDistinct(dir, results, extension, join);
    case Namer(name) => NamerDestinationsDistinct(name, results, extension, join);
  }
}
